=== FILE: README.md ===
# Challenger decision core in Dafny

This project models the decision logic of the challenger script. The script is a
bot-account helper for an online chess server. On each run it does nothing if the
account is already in a real-time game. Otherwise it draws a base clock and
classifies it as bullet, blitz, rapid or classical. It then reads the roster of bot
profiles, dropping disabled accounts, finds its own profile, and challenges the
first bot in the shuffled roster that passes four checks:

- it is not the caller;
- it was seen at most ten minutes ago;
- its rating in the category is within 300 of the caller's;
- it has at least 50 games in the category and at least 250 in total.

Modules, following the script's structure:

- `Wrappers` (`wrappers.dfy`): `Option` and `Result`.
- `TimeControls` (`time_control.dfy`): the `Category` datatype, the duration rule
  `seconds + 40 * increment`, the thresholds 179, 479 and 1499, and the eight base
  clocks on offer.
- `Profiles` (`profiles.dfy`): user records, the `Bot` profile with category-keyed
  maps, the total game count, the disabled-account filter, and roster building.
- `Selection` (`selection.dfy`): the thresholds, the per-entry checks in source
  order, and first-eligible selection as a recursive function and as a loop.
- `Challenger` (`challenger.dfy`): the "already playing" gate, the challenge request
  and one whole run.

Timestamps are integer seconds. The random draws are inputs:

- the base clock, which must be one of the eight choices;
- the roster order, as the order of the user records;
- the challenge colour.

A run ends in one of four outcomes:

- `Playing`: a real-time game is in progress.
- `NoOpponent`: no bot passed the checks.
- `Challenged`: carries the request that would be sent.
- `Crashed`: the source would raise. Either a non-disabled record lacks a category
  (a `KeyError` in the source), or the caller is not in the roster (a
  `StopIteration` in the source).

The caller check in the source compares objects (`bot == me`), not names. The model
matches this by recording the caller's position in the roster (the first entry with
the caller's name) and skipping exactly that position. `Selection.NeverSelfName` shows
that, when names are unique, the selected bot's name also differs from the caller's.

A record that lacks one of the four categories aborts the run: the code indexes
the record directly. The model follows the code: `Profiles.FromInfo` fails, and so
do `Profiles.GetAll` and `Challenger.Run`.

## Model

| member | source | states |
|---|---|---|
| TimeControls.Classify | challenger.py:78-89 | the category returned is the one whose duration band contains `seconds + 40 * increment` |
| TimeControls.ClassifyExact | challenger.py:78-89 | a category is the classification exactly when the duration lies in its band, so the bands do not overlap |
| TimeControls.ClassifyBoundaries | challenger.py:78-89 | 178 is bullet, 179 is blitz, 478 is blitz, 479 is rapid, 1498 is rapid and 1499 is classical; increments count 40 seconds each |
| TimeControls.ClassifyMonotone | challenger.py:78-89 | a duration at least as long never gives a faster category |
| TimeControls.ChoicesClassify | challenger.py:18-27 | 60 and 120 are bullet, 300 and 420 blitz, 600 and 900 rapid, 1800 and 2400 classical, so every category can be drawn |
| TimeControls.AllCategoriesComplete | challenger.py:37 | the four category names read from a profile cover every category |
| Profiles.Bot.TotalGames | challenger.py:41-43 | the total is the sum of the four per-category game counts |
| Profiles.Bot.Rating | challenger.py:48-49 | returns the rating stored for the category; `Profiles.FromInfo` states that it is the record's rating for that category |
| Profiles.Bot.NumGames | challenger.py:45-46 | returns the game count stored for the category; `Profiles.FromInfo` states that it is the record's game count for that category |
| Profiles.FirstMissing | challenger.py:37-39 | reports the first category in reading order that the record lacks, or none when all four are present |
| Profiles.FromInfo | challenger.py:31-39 | reading succeeds exactly when all four categories are present; the profile keeps the name and last-seen time, and each category's rating and game count are those of the record; otherwise the error names the first missing category in reading order (bullet, blitz, rapid, classical) |
| Profiles.FromInfoTotalGames | challenger.py:35-43 | the total game count of a profile read from a record is the sum of the record's four game counts |
| Profiles.ActiveInfos | challenger.py:75 | keeps exactly the records whose account is not disabled |
| Profiles.ActiveInfosAppend | challenger.py:75 | the filter preserves relative order: filtering a concatenation concatenates the filtered parts |
| Profiles.ActiveInfosIdempotent | challenger.py:75 | filtering twice is the same as filtering once |
| Profiles.ReadAll | challenger.py:75 | reads the records left to right and stops at the first that cannot be read; a successful read has one profile per record (`Profiles.ReadAllSuccess` and `Profiles.ReadAllFailure` state the rest) |
| Profiles.ReadAllSuccess | challenger.py:75 | reading succeeds exactly when each record can be read, and then the i-th profile is the one read from the i-th record |
| Profiles.ReadAllFailure | challenger.py:75 | a failed read carries the error of the first record that cannot be read |
| Profiles.GetAll | challenger.py:73-75 | the roster is built exactly when every non-disabled record is complete; it has one profile per non-disabled record, the i-th read from the i-th such record in the shuffled order; otherwise the error is that of the first non-disabled record that cannot be read |
| Profiles.GetAllFromRecords | challenger.py:75 | every profile of a built roster was read from the record of an account that is not disabled |
| Selection.Verdict | challenger.py:111-125 | an entry passes exactly when it is not the caller, was seen within ten minutes, is within 300 rating points and has enough games; the skip reason is the first check that fails, in source order |
| Selection.FindName | challenger.py:105 | returns the first position at or after a start whose bot has the name, or none when no later bot has it |
| Selection.FindSelf | challenger.py:105 | the caller's position is the first roster entry with the caller's name, or none when no entry has it |
| Selection.FirstEligible | challenger.py:109-131 | returns the first eligible position, with every earlier position ineligible, or none exactly when no position is eligible |
| Selection.SelectOpponent | challenger.py:103-131 | the loop returns the bot at the first eligible position, or nothing exactly when no entry is eligible |
| Selection.NeverSelf | challenger.py:111-113 | the selected position is never the caller's own position |
| Selection.NeverSelfName | challenger.py:105-113 | when roster names are unique, the selected bot's name is not the caller's |
| Selection.SelectedMeetsThresholds | challenger.py:115-125 | a selected bot was seen at most ten minutes ago, is within 300 rating points, and has at least 50 games in the category and 250 in total |
| Selection.Scenario | challenger.py:109-131 | for the caller at 1500, a bot at 1600 seen five minutes ago is chosen, a bot at 2000 is not eligible, and a bot seen fifteen minutes ago is passed over |
| Challenger.AnyBlocking | challenger.py:95 | true exactly when some ongoing game's speed is not correspondence |
| Challenger.AlreadyPlaying | challenger.py:94-97 | the gate closes exactly when some ongoing game is not correspondence; an empty list or only correspondence games leave it open |
| Challenger.ChallengeFor | challenger.py:51-63 | the request names the bot, carries the clock and increment, is rated, standard, from the initial position, with days fixed at one and the drawn colour |
| Challenger.Decide | challenger.py:101-131 | without the caller in the roster the run crashes; otherwise it challenges the first eligible bot with the drawn clock and no increment, or ends with no opponent exactly when no bot is eligible |
| Challenger.Proceed | challenger.py:99-131 | the run crashes on a bad record exactly when the roster cannot be built, with the error of the first non-disabled record that cannot be read; it crashes for a missing caller exactly when no non-disabled record has the caller's name; a challenge goes to the profile read from the k-th non-disabled record, which is eligible while every earlier one is not; it never reports "playing"; "no opponent" exactly when no profile is eligible |
| Challenger.SelfMissingOnRecords | challenger.py:105 | on a built roster, the run crashes for a missing caller exactly when no record of an enabled account carries the caller's name |
| Challenger.ChallengeOnRecords | challenger.py:109-131 | on a built roster, a challenged profile is the one read from the record at its position among enabled accounts, and it is the first eligible one |
| Challenger.RosterNames | challenger.py:32 | each profile of a built roster carries the username of the record it was read from, position by position |
| Challenger.Run | challenger.py:92-131 | the run stops as "playing" exactly when the gate closes and otherwise proceeds; any request carries the drawn clock, no increment and one day |
| Challenger.ChallengedOpponentQualifies | challenger.py:92-131 | a challenged opponent comes from a non-disabled record seen within ten minutes with at least 50 games in the drawn category |

## Left out

- The bot-listing page is not modelled. The script fetches it over HTTP and scrapes
  names from it with a regular expression. The user records that the batch lookup
  would return are an input instead.
- The chess-server client calls are not modelled: user lookup, the ongoing-games
  query and challenge creation. Their results (the records and the ongoing games)
  are inputs. The challenge that would be sent is returned as a `Challenge` value.
- Random choices are inputs, not computed: the base clock, the roster shuffle and
  the colour.
- Dates are integer seconds. The sub-second precision of the source's timestamps and
  the stripping of time zones are not modelled.
- The authentication token, the session and client globals, and console output are
  not modelled.
- Network and API failures are not modelled. In the source they raise and end the
  process.
- Profiles.UserInfo: a record always has a username, a last-seen time, and a rating
  and game count for each category it has. Only a missing category key is treated as
  an error.
- Challenger.Run: requires the base clock to be one of the eight choices, because
  the source only ever draws from that list. `TimeControls.Classify` itself accepts
  any clock and increment.

=== FILE: challenger.dfy ===
/**
 * One run of the challenger: refuse to challenge while a real-time game is
 * in progress, otherwise classify the drawn time control, build the roster,
 * find the caller in it, select an opponent and issue one challenge.
 * The drawn time control, the shuffled order of the user records, the current
 * time and the colour are inputs.
 */
module Challenger {
  import opened Wrappers
  import opened TimeControls
  import opened Profiles
  import opened Selection

  /** A game in progress, reduced to its speed name as the server reports it. */
  datatype Game = Game(speed: string)

  /** Whether a game in progress blocks a new challenge: only correspondence
      games do not. */
  predicate BlocksChallenge(g: Game) {
    g.speed != "correspondence"
  }

  /** Some game of the list blocks a new challenge. */
  function AnyBlocking(games: seq<Game>): (r: bool)
    ensures r <==> exists i :: 0 <= i < |games| && BlocksChallenge(games[i])
  {
    if games == [] then false
    else if games[0].speed != "correspondence" then true
    else
      var r := AnyBlocking(games[1..]);
      if r then
        var i :| 0 <= i < |games[1..]| && BlocksChallenge(games[1..][i]);
        assert games[i + 1] == games[1..][i];
        r
      else
        assert forall i :: 1 <= i < |games| ==> games[i] == games[1..][i - 1];
        r
  }

  /** The "already playing" gate: a non-empty list of ongoing games of which
      at least one is not correspondence. */
  function AlreadyPlaying(games: seq<Game>): (r: bool)
    ensures r <==> exists i :: 0 <= i < |games| && games[i].speed != "correspondence"
    ensures games == [] ==> !r
    ensures (forall i :: 0 <= i < |games| ==> games[i].speed == "correspondence") ==> !r
  {
    games != [] && AnyBlocking(games)
  }

  datatype Color = White | Black

  datatype Variant = Standard

  /** The parameters of a challenge request. */
  datatype Challenge = Challenge(
    opponent: string, rated: bool, clockLimit: int, clockIncrement: int,
    days: int, color: Color, variant: Variant, position: string)

  /** The request sent to challenge `b`: rated, standard chess from the
      initial position, `days` fixed at one although the game is real-time. */
  function ChallengeFor(b: Bot, seconds: int, increment: int, color: Color): (c: Challenge)
    ensures c.opponent == b.name && c.clockLimit == seconds && c.clockIncrement == increment
    ensures c.rated && c.days == 1 && c.variant == Standard && c.position == "" && c.color == color
  {
    Challenge(b.name, true, seconds, increment, 1, color, Standard, "")
  }

  /** Why a run stopped without sending a challenge because of bad data. */
  datatype RunError = BadProfile(error: ProfileError) | SelfNotInRoster

  /** How one run ends. */
  datatype Outcome =
    | Playing
    | NoOpponent
    | Challenged(request: Challenge)
    | Crashed(reason: RunError)

  /** What a run does once the roster is built: find the caller, classify
      the time control and challenge the first eligible bot, if any. */
  function Decide(bots: seq<Bot>, seconds: int, now: int, color: Color): (o: Outcome)
    requires AllValid(bots)
    ensures o != Playing && (o.Crashed? ==> o.reason == SelfNotInRoster)
    ensures o.Crashed? <==> forall j :: 0 <= j < |bots| ==> bots[j].name != MyName
    ensures o == NoOpponent ==> (
      && FindSelf(bots, MyName).Some?
      && forall k :: 0 <= k < |bots| ==> !Eligible(bots, FindSelf(bots, MyName).value, Classify(seconds, 0), now, k))
    ensures o.Challenged? ==> FindSelf(bots, MyName).Some? && exists k :: (
      && 0 <= k < |bots|
      && o.request == ChallengeFor(bots[k], seconds, 0, color)
      && Eligible(bots, FindSelf(bots, MyName).value, Classify(seconds, 0), now, k)
      && forall j :: 0 <= j < k ==> !Eligible(bots, FindSelf(bots, MyName).value, Classify(seconds, 0), now, j))
  {
    var cat := Classify(seconds, 0);
    match FindSelf(bots, MyName)
    case None => Crashed(SelfNotInRoster)
    case Some(me) =>
      match FirstEligible(bots, me, cat, now, 0)
      case None => NoOpponent
      case Some(k) => Challenged(ChallengeFor(bots[k], seconds, 0, color))
  }

  /** A run past the gate: build the roster from the records and decide on
      it; a record that cannot be read aborts the run. Positions below are
      positions among the records of accounts that are not disabled, in the
      shuffled order the records arrive in. */
  function Proceed(seconds: int, infos: seq<UserInfo>, now: int, color: Color): (o: Outcome)
    ensures o != Playing
    ensures o.Crashed? && o.reason.BadProfile? <==> GetAll(infos).Failure?
    ensures o.Crashed? && o.reason.BadProfile? ==> exists i :: (
      && 0 <= i < |ActiveInfos(infos)|
      && FromInfo(ActiveInfos(infos)[i]) == Failure(o.reason.error)
      && forall j :: 0 <= j < i ==> FromInfo(ActiveInfos(infos)[j]).Success?)
    ensures o == Crashed(SelfNotInRoster) <==>
      GetAll(infos).Success? && forall i :: 0 <= i < |ActiveInfos(infos)| ==> ActiveInfos(infos)[i].username != MyName
    ensures o == NoOpponent ==> (
      && GetAll(infos).Success? && FindSelf(GetAll(infos).value, MyName).Some?
      && forall k :: 0 <= k < |GetAll(infos).value| ==>
        !Eligible(GetAll(infos).value, FindSelf(GetAll(infos).value, MyName).value, Classify(seconds, 0), now, k))
    ensures o.Challenged? ==> GetAll(infos).Success? && FindSelf(GetAll(infos).value, MyName).Some?
    ensures o.Challenged? ==> exists k :: (
      && 0 <= k < |ActiveInfos(infos)| && k < |GetAll(infos).value|
      && FromInfo(ActiveInfos(infos)[k]) == Success(GetAll(infos).value[k])
      && o.request == ChallengeFor(GetAll(infos).value[k], seconds, 0, color)
      && Eligible(GetAll(infos).value, FindSelf(GetAll(infos).value, MyName).value, Classify(seconds, 0), now, k)
      && forall j :: 0 <= j < k ==>
        !Eligible(GetAll(infos).value, FindSelf(GetAll(infos).value, MyName).value, Classify(seconds, 0), now, j))
  {
    match GetAll(infos)
    case Failure(e) => Crashed(BadProfile(e))
    case Success(bots) =>
      SelfMissingOnRecords(infos, seconds, now, color);
      ChallengeOnRecords(infos, seconds, now, color);
      Decide(bots, seconds, now, color)
  }

  /** On a built roster, the caller is missing exactly when no record of an
      account that is not disabled carries the caller's name. */
  lemma SelfMissingOnRecords(infos: seq<UserInfo>, seconds: int, now: int, color: Color)
    requires GetAll(infos).Success?
    ensures Decide(GetAll(infos).value, seconds, now, color) == Crashed(SelfNotInRoster) <==>
      forall i :: 0 <= i < |ActiveInfos(infos)| ==> ActiveInfos(infos)[i].username != MyName
  {
    RosterNames(infos);
  }

  /** On a built roster, a challenged profile is the one read from the record
      at its position, and it is the first eligible one. */
  lemma ChallengeOnRecords(infos: seq<UserInfo>, seconds: int, now: int, color: Color)
    requires GetAll(infos).Success?
    ensures var bots := GetAll(infos).value;
      var o := Decide(bots, seconds, now, color);
      o.Challenged? ==> exists k :: (
        && 0 <= k < |ActiveInfos(infos)| && k < |bots|
        && FromInfo(ActiveInfos(infos)[k]) == Success(bots[k])
        && o.request == ChallengeFor(bots[k], seconds, 0, color)
        && Eligible(bots, FindSelf(bots, MyName).value, Classify(seconds, 0), now, k)
        && forall j :: 0 <= j < k ==> !Eligible(bots, FindSelf(bots, MyName).value, Classify(seconds, 0), now, j))
  {
    var bots := GetAll(infos).value;
    var o := Decide(bots, seconds, now, color);
    if o.Challenged? {
      var me := FindSelf(bots, MyName).value;
      var k :| 0 <= k < |bots| && o.request == ChallengeFor(bots[k], seconds, 0, color)
        && Eligible(bots, me, Classify(seconds, 0), now, k)
        && forall j :: 0 <= j < k ==> !Eligible(bots, me, Classify(seconds, 0), now, j);
      assert FromInfo(ActiveInfos(infos)[k]) == Success(bots[k]) by {
        assert |bots| == |ActiveInfos(infos)|;
      }
    }
  }

  /** Each profile of a built roster carries the name of the record it was
      read from. */
  lemma RosterNames(infos: seq<UserInfo>)
    requires GetAll(infos).Success?
    ensures |GetAll(infos).value| == |ActiveInfos(infos)|
    ensures forall i :: 0 <= i < |ActiveInfos(infos)| ==> GetAll(infos).value[i].name == ActiveInfos(infos)[i].username
  {
  }

  /** One run. `ongoing` is the list of games in progress, `seconds` the base
      clock drawn from the choices, `infos` the user records in shuffled
      order, `now` the current time in seconds and `color` the drawn colour. */
  function Run(ongoing: seq<Game>, seconds: int, infos: seq<UserInfo>, now: int, color: Color): (o: Outcome)
    requires seconds in Choices
    ensures o == Playing <==> AlreadyPlaying(ongoing)
    ensures !AlreadyPlaying(ongoing) ==> o == Proceed(seconds, infos, now, color)
    ensures o.Challenged? ==> o.request.clockLimit == seconds && o.request.clockIncrement == 0 && o.request.days == 1
  {
    if AlreadyPlaying(ongoing) then Playing else Proceed(seconds, infos, now, color)
  }

  /** End to end: a challenged opponent comes from a record of an account
      that is not disabled, was seen within ten minutes and has at least the
      minimum number of games in the category of the drawn time control. */
  lemma ChallengedOpponentQualifies(
    ongoing: seq<Game>, seconds: int, infos: seq<UserInfo>, now: int, color: Color)
    requires seconds in Choices
    ensures Run(ongoing, seconds, infos, now, color).Challenged? ==> exists x :: (
      && x in infos && !x.disabled
      && x.username == Run(ongoing, seconds, infos, now, color).request.opponent
      && now - x.seenAt <= TimeMin
      && Name(Classify(seconds, 0)) in x.perfs
      && x.perfs[Name(Classify(seconds, 0))].games >= TcGamesMin)
  {
    var o := Run(ongoing, seconds, infos, now, color);
    if o.Challenged? {
      var bots := GetAll(infos).value;
      var cat := Classify(seconds, 0);
      var k :| 0 <= k < |bots| && o.request == ChallengeFor(bots[k], seconds, 0, color)
        && Eligible(bots, FindSelf(bots, MyName).value, cat, now, k);
      assert bots[k] in bots;
      GetAllFromRecords(infos);
      var x :| x in infos && !x.disabled && FromInfo(x) == Success(bots[k]);
      assert bots[k].NumGames(cat) == x.perfs[Name(cat)].games;
    }
  }
}

=== FILE: profiles.dfy ===
/**
 * Bot profiles: the per-category ratings and game counts read from the
 * server's user records, the derived total game count, and the roster
 * built from a batch of records with disabled accounts left out.
 */
module Profiles {
  import opened Wrappers
  import opened TimeControls

  /** Rating and number of rated games in one category of a user record. */
  datatype Perf = Perf(rating: int, games: int)

  /** One user record as the batch lookup returns it; `perfs` is keyed by the
      server's category names and may hold other keys besides the four. */
  datatype UserInfo = UserInfo(username: string, seenAt: int, perfs: map<string, Perf>, disabled: bool)

  /** Reading a record fails on the first of the four categories it lacks. */
  datatype ProfileError = MissingPerf(username: string, category: Category)

  /** Sum of `m` over the keys listed in `cats`, counted with multiplicity. */
  function SumOver(m: map<Category, int>, cats: seq<Category>): int
    requires forall i :: 0 <= i < |cats| ==> cats[i] in m
  {
    if cats == [] then 0 else m[cats[0]] + SumOver(m, cats[1..])
  }

  /** A bot's profile; `lastSeen` is in seconds. */
  datatype Bot = Bot(name: string, lastSeen: int, ratings: map<Category, int>, games: map<Category, int>) {

    /** Every category has a rating and a game count. */
    predicate Valid() {
      forall c: Category :: c in ratings && c in games
    }

    function Rating(c: Category): int
      requires Valid()
    {
      ratings[c]
    }

    function NumGames(c: Category): int
      requires Valid()
    {
      games[c]
    }

    /** Games played over all four categories. */
    function TotalGames(): (t: int)
      requires Valid()
      ensures t == NumGames(Bullet) + NumGames(Blitz) + NumGames(Rapid) + NumGames(Classical)
    {
      var s := AllCategories;
      assert s[1..] == [Blitz, Rapid, Classical] && s[1..][1..] == [Rapid, Classical];
      assert s[1..][1..][1..] == [Classical] && s[1..][1..][1..][1..] == [];
      assert SumOver(games, s[1..][1..][1..]) == games[Classical];
      assert SumOver(games, s[1..][1..]) == games[Rapid] + games[Classical];
      assert SumOver(games, s[1..]) == games[Blitz] + games[Rapid] + games[Classical];
      SumOver(games, s)
    }
  }

  /** Every bot of the roster is valid. */
  predicate AllValid(roster: seq<Bot>) {
    forall i :: 0 <= i < |roster| ==> roster[i].Valid()
  }

  /** The first category of `cats` whose key the record lacks, if any. */
  function FirstMissing(perfs: map<string, Perf>, cats: seq<Category>): (r: Option<Category>)
    ensures r.None? <==> forall i :: 0 <= i < |cats| ==> Name(cats[i]) in perfs
    ensures r.Some? ==> Name(r.value) !in perfs
    ensures r.Some? ==> exists k :: 0 <= k < |cats| && cats[k] == r.value && forall j :: 0 <= j < k ==> Name(cats[j]) in perfs
  {
    if cats == [] then None
    else if Name(cats[0]) !in perfs then Some(cats[0])
    else
      var r := FirstMissing(perfs, cats[1..]);
      if r.Some? then
        var k :| 0 <= k < |cats[1..]| && cats[1..][k] == r.value && forall j :: 0 <= j < k ==> Name(cats[1..][j]) in perfs;
        assert cats[k + 1] == r.value;
        r
      else r
  }

  /** Builds a profile from a user record, reading each category's rating and
      game count; a record lacking one of the categories is rejected. */
  function FromInfo(info: UserInfo): (r: Result<Bot, ProfileError>)
    ensures r.Success? <==> forall c: Category :: Name(c) in info.perfs
    ensures r.Success? ==> r.value.Valid() && r.value.name == info.username && r.value.lastSeen == info.seenAt
    ensures r.Success? ==> forall c: Category ::
      r.value.Valid() && r.value.Rating(c) == info.perfs[Name(c)].rating && r.value.NumGames(c) == info.perfs[Name(c)].games
    ensures r.Failure? ==> r.error.username == info.username && Name(r.error.category) !in info.perfs
    ensures r.Failure? ==> forall c: Category :: Rank(c) < Rank(r.error.category) ==> Name(c) in info.perfs
  {
    var p := info.perfs;
    match FirstMissing(p, AllCategories)
    case Some(c) =>
      var k :| 0 <= k < |AllCategories| && AllCategories[k] == c
        && forall j :: 0 <= j < k ==> Name(AllCategories[j]) in p;
      assert forall d: Category :: AllCategories[Rank(d)] == d;
      Failure(MissingPerf(info.username, c))
    case None =>
      AllCategoriesComplete();
      Success(Bot(info.username, info.seenAt,
        map c | c in AllCategories :: p[Name(c)].rating,
        map c | c in AllCategories :: p[Name(c)].games))
  }

  /** The total game count of a profile read from a record is the sum of
      the record's four per-category game counts. */
  lemma FromInfoTotalGames(info: UserInfo)
    requires FromInfo(info).Success?
    ensures FromInfo(info).value.TotalGames() ==
      info.perfs[Name(Bullet)].games + info.perfs[Name(Blitz)].games
      + info.perfs[Name(Rapid)].games + info.perfs[Name(Classical)].games
  {
  }

  /** The records of accounts that are not disabled, in their original order. */
  function ActiveInfos(infos: seq<UserInfo>): (r: seq<UserInfo>)
    ensures forall x :: x in r <==> x in infos && !x.disabled
    ensures |r| <= |infos|
  {
    if infos == [] then []
    else if infos[0].disabled then ActiveInfos(infos[1..])
    else [infos[0]] + ActiveInfos(infos[1..])
  }

  /** Filtering keeps relative order: it distributes over concatenation. */
  lemma {:induction false} ActiveInfosAppend(a: seq<UserInfo>, b: seq<UserInfo>)
    ensures ActiveInfos(a + b) == ActiveInfos(a) + ActiveInfos(b)
  {
    if a == [] {
      assert a + b == b;
    } else {
      assert (a + b)[1..] == a[1..] + b;
      ActiveInfosAppend(a[1..], b);
    }
  }

  /** Filtering an already filtered roster changes nothing. */
  lemma {:induction false} ActiveInfosIdempotent(infos: seq<UserInfo>)
    ensures ActiveInfos(ActiveInfos(infos)) == ActiveInfos(infos)
  {
    if infos != [] {
      ActiveInfosIdempotent(infos[1..]);
    }
  }

  /** Reads every record into a profile, in order, stopping at the first
      record that lacks a category. */
  function ReadAll(infos: seq<UserInfo>): Result<seq<Bot>, ProfileError> {
    if infos == [] then Success([])
    else
      match FromInfo(infos[0])
      case Failure(e) => Failure(e)
      case Success(b) =>
        match ReadAll(infos[1..])
        case Failure(e) => Failure(e)
        case Success(rest) => Success([b] + rest)
  }

  /** Reading succeeds exactly when every record can be read, and then the
      i-th profile is the one read from the i-th record. */
  lemma {:induction false} ReadAllSuccess(infos: seq<UserInfo>)
    ensures ReadAll(infos).Success? <==> forall i :: 0 <= i < |infos| ==> FromInfo(infos[i]).Success?
    ensures ReadAll(infos).Success? ==> |ReadAll(infos).value| == |infos|
    ensures ReadAll(infos).Success? ==>
      forall i :: 0 <= i < |infos| ==> FromInfo(infos[i]) == Success(ReadAll(infos).value[i])
  {
    if infos != [] {
      var tail := infos[1..];
      ReadAllSuccess(tail);
      var head := FromInfo(infos[0]);
      var rest := ReadAll(tail);
      if head.Failure? {
        assert ReadAll(infos).Failure?;
      } else if rest.Failure? {
        assert ReadAll(infos).Failure?;
        var i :| 0 <= i < |tail| && !FromInfo(tail[i]).Success?;
        assert infos[i + 1] == tail[i];
      } else {
        var r := [head.value] + rest.value;
        assert ReadAll(infos) == Success(r);
        forall i | 0 <= i < |infos| ensures FromInfo(infos[i]) == Success(r[i]) {
          if i > 0 {
            assert infos[i] == tail[i - 1] && r[i] == rest.value[i - 1];
          }
        }
      }
    }
  }

  /** A failed read carries the error of the first record that cannot be read. */
  lemma {:induction false} ReadAllFailure(infos: seq<UserInfo>)
    ensures ReadAll(infos).Failure? ==> exists i :: (
      && 0 <= i < |infos|
      && FromInfo(infos[i]) == Failure(ReadAll(infos).error)
      && forall j :: 0 <= j < i ==> FromInfo(infos[j]).Success?)
  {
    if infos != [] && FromInfo(infos[0]).Success? && ReadAll(infos).Failure? {
      var tail := infos[1..];
      ReadAllFailure(tail);
      assert ReadAll(tail).Failure?;
      var i :| 0 <= i < |tail| && FromInfo(tail[i]) == Failure(ReadAll(tail).error)
        && forall j :: 0 <= j < i ==> FromInfo(tail[j]).Success?;
      assert FromInfo(infos[i + 1]) == Failure(ReadAll(infos).error);
      forall j | 0 <= j < i + 1 ensures FromInfo(infos[j]).Success? {
        if j > 0 {
          assert infos[j] == tail[j - 1];
        }
      }
    }
  }

  /** Builds the roster from a batch of user records: disabled accounts are
      dropped and every other record is read into a profile, in order; a
      remaining record that lacks a category aborts the whole batch. */
  function GetAll(infos: seq<UserInfo>): (r: Result<seq<Bot>, ProfileError>)
    ensures r.Success? <==> forall x :: x in infos && !x.disabled ==> FromInfo(x).Success?
    ensures r.Success? ==> AllValid(r.value) && |r.value| == |ActiveInfos(infos)|
    ensures r.Success? ==> forall i :: 0 <= i < |r.value| ==> FromInfo(ActiveInfos(infos)[i]) == Success(r.value[i])
    ensures r.Failure? ==> exists x :: x in infos && !x.disabled && FromInfo(x) == Failure(r.error)
    ensures r.Failure? ==> exists i :: (
      && 0 <= i < |ActiveInfos(infos)|
      && FromInfo(ActiveInfos(infos)[i]) == Failure(r.error)
      && forall j :: 0 <= j < i ==> FromInfo(ActiveInfos(infos)[j]).Success?)
  {
    var active := ActiveInfos(infos);
    ReadAllSuccess(active);
    ReadAllFailure(active);
    var r := ReadAll(active);
    if r.Success? then
      assert forall k :: 0 <= k < |r.value| ==> active[k] in infos && FromInfo(active[k]) == Success(r.value[k]);
      r
    else
      r
  }

  /** Every profile of a built roster was read from the record of an account
      that is not disabled. */
  lemma GetAllFromRecords(infos: seq<UserInfo>)
    requires GetAll(infos).Success?
    ensures forall b :: b in GetAll(infos).value ==> exists x :: x in infos && !x.disabled && FromInfo(x) == Success(b)
  {
    var bots := GetAll(infos).value;
    forall b | b in bots
      ensures exists x :: x in infos && !x.disabled && FromInfo(x) == Success(b)
    {
      var k :| 0 <= k < |bots| && bots[k] == b;
      assert ActiveInfos(infos)[k] in ActiveInfos(infos);
    }
  }
}

=== FILE: selection.dfy ===
/**
 * Opponent selection: walk the (already shuffled) roster in order and take
 * the first bot that is not the caller, was seen recently, is close enough in
 * rating in the chosen category and has played enough games.
 */
module Selection {
  import opened Wrappers
  import opened TimeControls
  import opened Profiles

  /** The caller's own account name. */
  const MyName: string := "Weiawaga"
  /** Largest accepted rating gap in the chosen category. */
  const RatingMax: int := 300
  /** Fewest games over all categories an opponent must have played. */
  const TotalGamesMin: int := 250
  /** Fewest games in the chosen category an opponent must have played. */
  const TcGamesMin: int := 50
  /** Longest time since an opponent was last seen, in seconds (ten minutes). */
  const TimeMin: int := 10 * 60

  /** Why a roster entry is passed over, in the order the checks are made. */
  datatype Skip = Myself | NotSeenRecently | RatingTooFar | TooFewGames

  function Abs(x: int): int {
    if x < 0 then -x else x
  }

  /** Seen no more than ten minutes before `now`. */
  predicate RecentlySeen(b: Bot, now: int) {
    b.lastSeen >= now - TimeMin
  }

  /** Rating in `cat` inside the window of `RatingMax` around `myRating`. */
  predicate RatingClose(b: Bot, myRating: int, cat: Category)
    requires b.Valid()
  {
    myRating - RatingMax <= b.Rating(cat) <= myRating + RatingMax
  }

  /** Enough games in `cat` and enough games overall. */
  predicate Experienced(b: Bot, cat: Category)
    requires b.Valid()
  {
    b.NumGames(cat) >= TcGamesMin && b.TotalGames() >= TotalGamesMin
  }

  /** The checks made on one roster entry, in order; `None` means the entry
      is challenged. */
  function Verdict(b: Bot, isMe: bool, myRating: int, cat: Category, now: int): (r: Option<Skip>)
    requires b.Valid()
    ensures r.None? <==> !isMe && RecentlySeen(b, now) && RatingClose(b, myRating, cat) && Experienced(b, cat)
    ensures r == Some(Myself) <==> isMe
    ensures r == Some(NotSeenRecently) <==> !isMe && !RecentlySeen(b, now)
    ensures r == Some(RatingTooFar) <==> !isMe && RecentlySeen(b, now) && !RatingClose(b, myRating, cat)
    ensures r == Some(TooFewGames) <==>
      !isMe && RecentlySeen(b, now) && RatingClose(b, myRating, cat) && !Experienced(b, cat)
  {
    if isMe then Some(Myself)
    else if now - b.lastSeen > TimeMin then Some(NotSeenRecently)
    else if Abs(b.Rating(cat) - myRating) > RatingMax then Some(RatingTooFar)
    else if b.NumGames(cat) < TcGamesMin || b.TotalGames() < TotalGamesMin then Some(TooFewGames)
    else None
  }

  /** Position `k` of the roster may be challenged when the caller's own
      entry sits at position `me`. */
  predicate Eligible(roster: seq<Bot>, me: nat, cat: Category, now: int, k: nat)
    requires AllValid(roster) && me < |roster| && k < |roster|
  {
    && k != me
    && RecentlySeen(roster[k], now)
    && RatingClose(roster[k], roster[me].Rating(cat), cat)
    && Experienced(roster[k], cat)
  }

  /** The first position at or after `from` whose bot is named `name`. */
  function FindName(roster: seq<Bot>, name: string, from: nat): (r: Option<nat>)
    requires from <= |roster|
    ensures r.None? <==> forall j :: from <= j < |roster| ==> roster[j].name != name
    ensures r.Some? ==> from <= r.value < |roster| && roster[r.value].name == name
    ensures r.Some? ==> forall j :: from <= j < r.value ==> roster[j].name != name
    decreases |roster| - from
  {
    if from == |roster| then None
    else if roster[from].name == name then Some(from)
    else FindName(roster, name, from + 1)
  }

  /** Position of the caller's own profile: the first entry with its name. */
  function FindSelf(roster: seq<Bot>, selfName: string): (r: Option<nat>)
    ensures r.None? <==> forall j :: 0 <= j < |roster| ==> roster[j].name != selfName
    ensures r.Some? ==> r.value < |roster| && roster[r.value].name == selfName
    ensures r.Some? ==> forall j :: 0 <= j < r.value ==> roster[j].name != selfName
  {
    FindName(roster, selfName, 0)
  }

  /** The first position at or after `from` that may be challenged. */
  function FirstEligible(roster: seq<Bot>, me: nat, cat: Category, now: int, from: nat): (r: Option<nat>)
    requires AllValid(roster) && me < |roster| && from <= |roster|
    ensures r.None? <==> forall j :: from <= j < |roster| ==> !Eligible(roster, me, cat, now, j)
    ensures r.Some? ==> from <= r.value < |roster| && Eligible(roster, me, cat, now, r.value)
    ensures r.Some? ==> forall j :: from <= j < r.value ==> !Eligible(roster, me, cat, now, j)
    decreases |roster| - from
  {
    if from == |roster| then None
    else if Verdict(roster[from], from == me, roster[me].Rating(cat), cat, now).None? then
      assert Eligible(roster, me, cat, now, from);
      Some(from)
    else FirstEligible(roster, me, cat, now, from + 1)
  }

  /** Walks the roster in order, skipping entries that fail a check, and
      returns the first that passes every one, or nothing. */
  method SelectOpponent(roster: seq<Bot>, selfName: string, cat: Category, now: int) returns (r: Option<Bot>)
    requires AllValid(roster) && FindSelf(roster, selfName).Some?
    ensures r.None? <==>
      forall j :: 0 <= j < |roster| ==> !Eligible(roster, FindSelf(roster, selfName).value, cat, now, j)
    ensures r.Some? ==> exists k :: (
      && 0 <= k < |roster| && roster[k] == r.value
      && Eligible(roster, FindSelf(roster, selfName).value, cat, now, k)
      && forall j :: 0 <= j < k ==> !Eligible(roster, FindSelf(roster, selfName).value, cat, now, j))
  {
    var me := FindSelf(roster, selfName).value;
    var myRating := roster[me].Rating(cat);
    var i := 0;
    while i < |roster|
      invariant 0 <= i <= |roster|
      invariant forall j :: 0 <= j < i ==> !Eligible(roster, me, cat, now, j)
    {
      var skip := Verdict(roster[i], i == me, myRating, cat, now);
      if skip.None? {
        assert Eligible(roster, me, cat, now, i);
        return Some(roster[i]);
      }
      i := i + 1;
    }
    return None;
  }

  /** The selected opponent is never the caller's own entry. */
  lemma NeverSelf(roster: seq<Bot>, selfName: string, cat: Category, now: int)
    requires AllValid(roster) && FindSelf(roster, selfName).Some?
    ensures var me := FindSelf(roster, selfName).value;
      var pick := FirstEligible(roster, me, cat, now, 0);
      pick.Some? ==> pick.value != me
  {
  }

  /** When no other entry shares the caller's name, the selected opponent's
      name is not the caller's. */
  lemma NeverSelfName(roster: seq<Bot>, selfName: string, cat: Category, now: int)
    requires AllValid(roster) && FindSelf(roster, selfName).Some?
    requires forall i, j :: 0 <= i < j < |roster| ==> roster[i].name != roster[j].name
    ensures var me := FindSelf(roster, selfName).value;
      var pick := FirstEligible(roster, me, cat, now, 0);
      pick.Some? ==> roster[pick.value].name != selfName
  {
    var me := FindSelf(roster, selfName).value;
    var pick := FirstEligible(roster, me, cat, now, 0);
    if pick.Some? {
      var k := pick.value;
      if k < me {
        assert roster[k].name != roster[me].name;
      } else if me < k {
        assert roster[me].name != roster[k].name;
      }
    }
  }

  /** A selected opponent meets each threshold as the source states it. */
  lemma SelectedMeetsThresholds(roster: seq<Bot>, me: nat, cat: Category, now: int)
    requires AllValid(roster) && me < |roster|
    ensures var pick := FirstEligible(roster, me, cat, now, 0);
      pick.Some? ==>
        var b := roster[pick.value];
        && now - b.lastSeen <= TimeMin
        && Abs(b.Rating(cat) - roster[me].Rating(cat)) <= RatingMax
        && b.NumGames(cat) >= TcGamesMin
        && b.TotalGames() >= TotalGamesMin
  {
  }

  /** A roster of the caller plus two candidates: the first is in range and
      is chosen, the second is 500 points away; a candidate last seen fifteen
      minutes ago is passed over. */
  lemma Scenario()
    ensures var now := 100000;
      var me := Bot("Weiawaga", now, Uniform(1500), Uniform(250));
      var a := Bot("A", now - 5 * 60, Uniform(1600), Uniform(125));
      var b := Bot("B", now, Uniform(2000), Uniform(125));
      var stale := Bot("C", now - 15 * 60, Uniform(1500), Uniform(125));
      && FirstEligible([me, a, b], 0, Blitz, now, 0) == Some(1)
      && !Eligible([me, a, b], 0, Blitz, now, 2)
      && FirstEligible([me, stale], 0, Blitz, now, 0) == None
  {
  }

  /** The same value in every category. */
  function Uniform(x: int): (m: map<Category, int>)
    ensures forall c: Category :: c in m && m[c] == x
  {
    AllCategoriesComplete();
    map c | c in AllCategories :: x
  }
}

=== FILE: time_control.dfy ===
/**
 * Time controls and the rule that files a clock setting under one of the
 * four rated speed categories: the expected duration of a game is the base
 * clock plus forty times the increment, and three strict thresholds cut that
 * duration into bullet, blitz, rapid and classical.
 */
module TimeControls {

  /** The four rated speed categories kept by a bot profile, fastest first. */
  datatype Category = Bullet | Blitz | Rapid | Classical

  /** Every category, in the order a profile is read. */
  const AllCategories: seq<Category> := [Bullet, Blitz, Rapid, Classical]

  /** The key under which the server stores a category in a profile. */
  function Name(c: Category): string {
    match c
    case Bullet => "bullet"
    case Blitz => "blitz"
    case Rapid => "rapid"
    case Classical => "classical"
  }

  /** The listing of all categories misses none. */
  lemma AllCategoriesComplete()
    ensures forall c: Category :: c in AllCategories
  {
    forall c: Category ensures c in AllCategories {
      assert c == AllCategories[Rank(c)];
    }
  }

  /** Position of a category from the fastest (0) to the slowest (3). */
  function Rank(c: Category): nat {
    match c
    case Bullet => 0
    case Blitz => 1
    case Rapid => 2
    case Classical => 3
  }

  /** Seconds of expected game time that one second of increment adds. */
  const IncrementWeight: int := 40

  /** Smallest duration, in seconds, filed as blitz. */
  const BlitzFrom: int := 179
  /** Smallest duration, in seconds, filed as rapid. */
  const RapidFrom: int := 479
  /** Smallest duration, in seconds, filed as classical. */
  const ClassicalFrom: int := 1499

  /** The base clocks, in seconds, a challenge is drawn from (no increment). */
  const Choices: seq<int> := [60, 120, 300, 420, 600, 900, 1800, 2400]

  /** Expected duration of a game with the given base clock and increment. */
  function Duration(seconds: int, increment: int): int {
    seconds + IncrementWeight * increment
  }

  /** The half-open band of durations that belongs to each category. */
  predicate InBand(c: Category, d: int) {
    match c
    case Bullet => d < BlitzFrom
    case Blitz => BlitzFrom <= d < RapidFrom
    case Rapid => RapidFrom <= d < ClassicalFrom
    case Classical => ClassicalFrom <= d
  }

  /** Category of a base clock of `seconds` with `increment` seconds added per move. */
  function Classify(seconds: int, increment: int): (r: Category)
    ensures InBand(r, Duration(seconds, increment))
  {
    var d := Duration(seconds, increment);
    if d < BlitzFrom then Bullet
    else if d < RapidFrom then Blitz
    else if d < ClassicalFrom then Rapid
    else Classical
  }

  /** The bands do not overlap: a category is the classification exactly when
      the duration lies in its band. */
  lemma ClassifyExact(seconds: int, increment: int, c: Category)
    ensures Classify(seconds, increment) == c <==> InBand(c, Duration(seconds, increment))
  {
  }

  /** The boundary durations fall on the side the strict thresholds put them. */
  lemma ClassifyBoundaries()
    ensures Classify(178, 0) == Bullet && Classify(179, 0) == Blitz
    ensures Classify(478, 0) == Blitz && Classify(479, 0) == Rapid
    ensures Classify(1498, 0) == Rapid && Classify(1499, 0) == Classical
    ensures Classify(59, 3) == Blitz && Classify(0, 12) == Rapid
  {
  }

  /** A longer expected duration never gives a faster category. */
  lemma ClassifyMonotone(s1: int, i1: int, s2: int, i2: int)
    requires Duration(s1, i1) <= Duration(s2, i2)
    ensures Rank(Classify(s1, i1)) <= Rank(Classify(s2, i2))
  {
  }

  /** Each base clock on offer is classified as listed, so every category is
      reached by exactly two of the eight choices. */
  lemma ChoicesClassify()
    ensures forall i :: 0 <= i < |Choices| ==>
      Classify(Choices[i], 0) == [Bullet, Bullet, Blitz, Blitz, Rapid, Rapid, Classical, Classical][i]
    ensures (set i | 0 <= i < |Choices| :: Classify(Choices[i], 0)) == {Bullet, Blitz, Rapid, Classical}
  {
    var reached := set i | 0 <= i < |Choices| :: Classify(Choices[i], 0);
    assert Classify(Choices[0], 0) == Bullet;
    assert Classify(Choices[2], 0) == Blitz;
    assert Classify(Choices[4], 0) == Rapid;
    assert Classify(Choices[6], 0) == Classical;
    assert Bullet in reached && Blitz in reached && Rapid in reached && Classical in reached;
  }
}

=== FILE: wrappers.dfy ===
/** Option and Result datatypes shared by the rest of the model. */
module Wrappers {

  /** A value that may be absent, used for "no opponent found" and lookups. */
  datatype Option<+T> = None | Some(value: T)

  /** The outcome of an operation that can fail with an error of type E. */
  datatype Result<+T, +E> = Success(value: T) | Failure(error: E)
}
